=== FILE: README.md ===
# Star Wars catalogue favorites, modelled in Dafny

This project models the favorites bookkeeping of a small Star-Wars catalogue
backend. The backend is a Flask/SQLAlchemy application with users, planets,
people and vehicles. Users mark planets and people as favorites through HTTP
routes. Deleting a planet, person or vehicle removes the favorite rows that
point to it (`cascade='all, delete-orphan'`).

The database is an immutable `Store` value. It holds one map from id to row
for each catalogue table (`users`, `planets`, `people`, `vehicles`). It holds
one sequence of rows, in storage order, for each favorite table. Each
write handler (`AddFavorite`, `DeleteFavorite`) is a pure function from a
store and the path parameters to an `Outcome` and the store afterwards. The
read handlers return their answer alone, without a store: `GetOnePlanet` and
`GetOnePerson` an `Outcome`, `GetUserFavorites` a `Listing`, and the
list-everything routes a sequence of JSON objects. The outcomes are:

- `Ok` answers 200.
- `Created` answers 201.
- `Conflict` answers 400 (the favorite already exists).
- `NotFound` answers 404.

Files and modules:

- `wrappers.dfy` (`Wrappers`): `Option`.
- `json.dfy` (`Json`): a JSON object as the ordered key/value list a Python
  dict literal builds, and `Get`, which reads a key as a client would.
- `models.dfy` (`Models`): the entity records and their `serialize`
  projections. FavoritePlanet, FavoritePerson and FavoriteVehicle have the same
  columns (id, user_id, target id), so one `Favorite` row type serves all
  three. `Target` names the table and the JSON name of the target column.
- `tables.dfy` (`Tables`): queries over one favorite table:
  - the `filter_by(...).first()` lookup;
  - the per-user listing;
  - the id a new row receives;
  - single-row delete;
  - the delete-by-target step of the cascade;
  - the uniqueness invariants and the lemmas that they are preserved.
- `store.dfy` (`Store`): the store and its invariant `Valid`. `Valid` says:
  - every catalogue row sits under its own id;
  - emails are unique;
  - favorite ids are unique;
  - there is at most one favorite row per (user, target) pair;
  - no favorite points to a missing target.

  The module also holds user insertion (with the database's key and email
  constraints) and the cascading entity delete.
- `app.dfy` (`App`): the route handlers and the lemmas that relate them: the
  add/delete round trip, the repeated add, what the listing shows after each,
  and preservation of `Valid`.

Favorite creation does not check that the user exists; the model keeps that
behaviour as written (see the `App.AddFavorite` line under "## Left out" for
the foreign key).

The model follows SQLite's defaults. Against the configured PostgreSQL
database (src/app.py:16-18) it differs from the program in two more places,
both listed under "## Left out": an add for an unknown user answers 201
instead of failing at commit (`App.AddFavorite`), and a deleted favorite's id
can be handed out again (`Tables.FreshId`). In one place it differs from the
program under either database: deleting a planet that is some person's home
world succeeds in the model and leaves that person's `home_world_id`
dangling, where the ORM would refuse the delete (see the `Store.DeleteEntity`
line under "## Left out").

## Model

| member | source | states |
|---|---|---|
| Models.SerializeUser | src/models.py:25-31 | the public user object has exactly the keys id, email, is_active, in that order, carrying the user's values; there is no password key |
| Models.SerializeUserExposes | src/models.py:25-31 | two users serialize identically exactly when id, email and is_active agree, so the password never influences what a client sees |
| Models.SerializePlanet | src/models.py:50-56 | the planet object has exactly the keys id, name, climate, gravity with the planet's values and no relationship data |
| Models.SerializePlanetExposes | src/models.py:50-56 | two planets serialize identically exactly when they are equal: every column is exposed |
| Models.SerializePerson | src/models.py:75-80 | the person object has exactly the keys id, name, skin_color with the person's values; home_world_id is absent |
| Models.SerializePersonExposes | src/models.py:75-80 | two persons serialize identically exactly when id, name and skin color agree, so the home world never shows |
| Models.SerializeVehicle | src/models.py:96-102 | the vehicle object has exactly the keys id, name, crew, consumables with the vehicle's values |
| Models.SerializeVehicleExposes | src/models.py:96-102 | two vehicles serialize identically exactly when they are equal |
| Models.SerializeFavorite | src/models.py:116-121 | a favorite object has exactly the keys id, user_id and the target column (planet_id, person_id or vehicle_id, as at lines 137-142 and 156-161), carrying the row's own values |
| Models.ParseSerializedFavorite | src/models.py:116-121 | reading a serialized favorite back gives the stored row unchanged |
| Tables.FindFirst | src/app.py:99-100 | the lookup finds nothing exactly when no row links the user to the target; otherwise it gives the first such row in storage order |
| Tables.FindFirstAppend | src/app.py:99-105 | once a row is appended for a pair that had none, the lookup of that pair finds exactly the appended row |
| Tables.FreshId | src/app.py:103-105 | the id given to a new favorite row is positive and larger than every id already in the table, hence fresh |
| Tables.SelectUser | src/app.py:82-83 | a row is listed for a user exactly when it is in the table with that user_id |
| Tables.SelectUserAppend | src/app.py:82-83 | the per-user listing keeps storage order: it distributes over concatenation of tables |
| Tables.RemoveTarget | src/models.py:47 | after the cascade a row remains exactly when it was there and does not point to the deleted entity |
| Tables.RemoveTargetKeepsOthers | src/models.py:47 | the cascade leaves the rows of every other target exactly as they were, order included |
| Tables.RemoveTargetAppend | src/models.py:47 | the cascade distributes over concatenation, so the surviving rows keep their storage order across all targets |
| Tables.RemoveTargetAbsent | src/models.py:47 | when no favorite points to the deleted entity the table is left identical |
| Tables.AppendKeepsUnique | src/app.py:99-105 | appending a row for a new pair under a fresh id keeps ids unique and at most one row per pair |
| Tables.RemoveAtKeepsUniquePairs | src/app.py:130-134 | deleting one row keeps at most one row per pair, and under unique pairs the deleted pair is then absent |
| Tables.RemoveAtKeepsUniqueIds | src/app.py:130-134 | deleting one row keeps ids unique |
| Tables.RemoveTargetKeepsUnique | src/models.py:47-93 | the cascade keeps ids unique and at most one row per pair |
| Store.InsertUser | src/models.py:14-15 | the database refuses a user exactly when the id or the email is already taken; otherwise only the users table changes, by exactly that row, and email uniqueness is preserved |
| Store.InsertUserKeepsValid | src/models.py:14-15 | a successful user insert keeps every store invariant |
| Store.DeleteEntity | src/models.py:44-47 | deleting a planet, person or vehicle removes it, keeps every other row of its table as it was, and removes exactly the favorite rows of that kind pointing to it, the rest staying in storage order; the other favorite tables, the users and the other catalogue tables are unchanged (a planet delete leaves Person rows alone) |
| Store.DeleteEntityKeepsValid | src/models.py:47-93 | after an entity delete no favorite row is left pointing to a missing entity, and every other invariant still holds |
| Store.DeleteEntityKeepsOtherFavorites | src/models.py:47-93 | deleting an entity leaves the favorite rows of every other entity of its kind unchanged and in order |
| App.AddFavorite | src/app.py:90-125 | a missing target answers 404 and changes nothing, even if a row for the pair exists; an existing pair answers 400 and changes nothing; otherwise exactly one row for (user, target) is appended under a fresh id, nothing else changes, and the 201 body is exactly that new row's serialization, which reads back as the row; the user is not checked |
| App.AddFavoriteKeepsValid | src/app.py:93-105 | adding a favorite keeps every store invariant, at most one row per pair and existing targets included |
| App.AddTwiceConflicts | src/app.py:99-101 | repeating a successful add of the same pair answers 400 and changes nothing |
| App.DeleteFavorite | src/app.py:128-145 | a missing pair answers 404 and changes nothing; otherwise the first row of the pair, the one the lookup finds, is removed, the answer is 200 with the confirmation message, every other row stays, and under unique pairs the pair is then absent |
| App.DeleteFavoriteKeepsValid | src/app.py:130-134 | deleting a favorite keeps every store invariant |
| App.AddThenDelete | src/app.py:90-145 | a successful add followed by a delete of the same pair answers 200 and restores the original store; a second delete answers 404 |
| App.PlanetFavoriteScenario | src/app.py:90-145 | on a database holding only planet 1, user 3's first add answers 201 with {id: 1, user_id: 3, planet_id: 1}, the repeat answers 400, the delete answers 200 and restores the database, and a second delete answers 404 |
| App.SerializeRows | src/app.py:85-86 | each listed object has exactly the keys id, user_id and the kind's target column and reads back as the corresponding row |
| App.GetUserFavorites | src/app.py:80-87 | the listing holds, for planets and for people, exactly the rows of that user in storage order, each with exactly the keys id, user_id and the target column and reading back as the stored row |
| App.ListingAfterAdd | src/app.py:80-106 | after a successful add the user's listing of that kind gains the created object at the end, and the other kind is unchanged |
| App.ListingAfterDelete | src/app.py:80-145 | after a delete in a valid store the user's listing of that kind shows no favorite of the deleted target |
| App.GetOnePlanet | src/app.py:64-69 | 404 with the planet error exactly when the id is unknown; otherwise 200 with exactly the keys id, name, climate, gravity, carrying the planet's name, climate and gravity and the requested id |
| App.GetOnePerson | src/app.py:47-52 | 404 with the person error exactly when the id is unknown; otherwise 200 with exactly the keys id, name, skin_color, carrying the person's name and skin color and the requested id, so no home world |
| App.SerializeAll | src/app.py:43-44 | the listing holds one serialized object per stored row, every row appears, and nothing else appears; position i holds the serialization of the i-th scanned key, and no key is scanned twice |
| App.GetAllPlanets | src/app.py:58-61 | every planet is listed, once per row, and every listed object is some stored planet's serialization |
| App.GetAllPeople | src/app.py:41-44 | every person is listed, once per row, and every listed object is some stored person's serialization |
| App.GetAllUsers | src/app.py:74-77 | every user is listed, once per row, every listed object is some stored user's serialization, and no listed object has a password key |

## Left out

- Flask application setup is not modelled: the database URL, Migrate, CORS, the admin panel, the sitemap and the `APIException` handler (src/app.py:13-36). This is framework plumbing and I/O.
- `utils` (`APIException`, `generate_sitemap`) and `admin` (`setup_admin`) are not part of this model.
- JSON encoding and HTTP transport are not modelled. `Outcome` carries the success body and `Status` gives the code. An error body `{"error": message}` is modelled as its message string.
- SQLAlchemy sessions, commits and back-populated object graphs are replaced by id-keyed maps and row sequences. Each handler's writes take effect at once.
- The race between the duplicate check and the insert (src/app.py:99-105) is not modelled. It needs concurrent requests, and the model is sequential.
- The `String(120)` / `String(80)` column length limits are not modelled. The database applies them, not the code.
- Favorite-vehicle add and delete are not modelled, because no route exists for them. Only the FavoriteVehicle cascade is modelled, through `Store.DeleteEntity`.
- Store.DeleteEntity: deleting a planet that is some person's home world succeeds and leaves that person's `home_world_id` dangling. The ORM would instead try to clear a non-nullable foreign key. That behaviour lives in SQLAlchemy and is not modelled.
- App.AddFavorite: `user_id` is a foreign key to `user.id` on both favorite tables (src/models.py:110 and 130). On PostgreSQL, adding a favorite for an unknown user fails at commit (src/app.py:105 and 124) with an unhandled integrity error. The model answers 201 instead: it follows SQLite's default of not enforcing foreign keys, and it does not model that rejection.
- Deleting a user is not modelled. No route deletes users, and `User` declares no cascade.
- Tables.FreshId: a new favorite gets one past the largest id now in the table, which is SQLite's rowid rule. After add, delete, add the same id comes back. The configured PostgreSQL database (src/app.py:16-18) draws ids from a sequence that never reuses one and would give the next id instead. The exact ids in App.AddFavoriteAppends and App.PlanetFavoriteScenario, and the full restore in App.AddThenDelete, hold only under the SQLite rule. Under a sequence only freshness, which FreshId's contract states, carries over, and AddThenDelete's restore would hold for every table except the sequence counter.
- App.GetAllPlanets: the order of a table scan is not stated, because catalogue tables are maps here. The contract says only that every row is listed once.
- App.GetAllPeople: scan order is not stated, for the same reason.
- App.GetAllUsers: scan order is not stated, for the same reason.
- App.SerializeAll: scan order is not stated, for the same reason.
- Ids are unbounded integers. Flask's `<int:…>` converter only accepts non-negative numbers, and the model also admits negative ids.

=== FILE: app.dfy ===
/**
 The route handlers, each a pure function from the database (and the path
 parameters) to an outcome and the database afterwards. The outcome carries
 the JSON body of a success or the error message of a failure; `Status`
 gives the HTTP status code the handler answers with.
 */
module App {
  import opened Wrappers
  import opened Json
  import opened Models
  import opened Tables
  import opened Store

  datatype Outcome = Ok(body: Object) | Created(body: Object) | Conflict(error: string) | NotFound(error: string)

  function Status(o: Outcome): int
  {
    match o
    case Ok(_) => 200
    case Created(_) => 201
    case Conflict(_) => 400
    case NotFound(_) => 404
  }

  /** The favorite kinds that have routes; favorite vehicles have none. */
  type RoutedTarget = t: Target | t != VehicleTarget witness PlanetTarget

  function TargetNotFoundMessage(t: RoutedTarget): string
  {
    if t == PlanetTarget then "Planeta no encontrado" else "Personaje no encontrado"
  }

  function DuplicateMessage(t: RoutedTarget): string
  {
    if t == PlanetTarget then "El planeta ya está en favoritos" else "El personaje ya está en favoritos"
  }

  function FavoriteNotFoundMessage(t: RoutedTarget): string
  {
    if t == PlanetTarget then "Favorito de planeta no encontrado" else "Favorito de personaje no encontrado"
  }

  function DeletedBody(t: RoutedTarget): Object
  {
    if t == PlanetTarget then [Field("message", Str("Favorito de planeta eliminado correctamente"))]
    else [Field("message", Str("Favorito de personaje eliminado correctamente"))]
  }

  /**
   POST /favorite/<user_id>/planet/<id> and /favorite/<user_id>/person/<id>.
   The target must exist (404 otherwise, whatever the favorites hold), then
   the pair must be new (400 otherwise); then exactly one row is appended
   under a fresh id and returned with 201. The user id is not checked.
   */
  function AddFavorite(s: Store, t: RoutedTarget, userId: int, targetId: int): (r: (Outcome, Store))
    ensures !TargetExists(s, t, targetId) ==> r == (NotFound(TargetNotFoundMessage(t)), s)
    ensures TargetExists(s, t, targetId) && HasPair(Rows(s, t), userId, targetId) ==> r == (Conflict(DuplicateMessage(t)), s)
    ensures r.0.Created? <==> TargetExists(s, t, targetId) && !HasPair(Rows(s, t), userId, targetId)
    ensures r.0.Created? ==>
      var rows := Rows(s, t);
      var rows' := Rows(r.1, t);
      && |rows'| == |rows| + 1
      && rows'[..|rows|] == rows
      && Matches(rows'[|rows|], userId, targetId)
      && (forall i :: 0 <= i < |rows| ==> rows[i].id != rows'[|rows|].id)
      && ParseFavorite(t, r.0.body) == Some(rows'[|rows|])
      && r.0.body == SerializeFavorite(t, rows'[|rows|])
      && r.1 == WithRows(s, t, rows')
    ensures !r.0.Ok?
  {
    var rows := Rows(s, t);
    if !TargetExists(s, t, targetId) then
      (NotFound(TargetNotFoundMessage(t)), s)
    else if FindFirst(rows, userId, targetId).Some? then
      (Conflict(DuplicateMessage(t)), s)
    else
      var f := Favorite(FreshId(rows), userId, targetId);
      ParseSerializedFavorite(t, f);
      assert (rows + [f])[..|rows|] == rows;
      (Created(SerializeFavorite(t, f)), WithRows(s, t, rows + [f]))
  }

  /**
   DELETE /favorite/<user_id>/planet/<id> and /favorite/<user_id>/person/<id>.
   A missing pair answers 404 and changes nothing; otherwise the first row of
   the pair is deleted, every other row stays in place, and the answer is 200.
   */
  function DeleteFavorite(s: Store, t: RoutedTarget, userId: int, targetId: int): (r: (Outcome, Store))
    ensures !HasPair(Rows(s, t), userId, targetId) ==> r == (NotFound(FavoriteNotFoundMessage(t)), s)
    ensures HasPair(Rows(s, t), userId, targetId) ==> r.0 == Ok(DeletedBody(t))
    ensures HasPair(Rows(s, t), userId, targetId) ==>
      var rows := Rows(s, t);
      exists i :: 0 <= i < |rows| && FindFirst(rows, userId, targetId) == Some(i) && Rows(r.1, t) == RemoveAt(rows, i)
    ensures |Rows(r.1, t)| == |Rows(s, t)| - (if HasPair(Rows(s, t), userId, targetId) then 1 else 0)
    ensures forall f :: f in Rows(s, t) && !Matches(f, userId, targetId) ==> f in Rows(r.1, t)
    ensures UniquePairs(Rows(s, t)) ==> !HasPair(Rows(r.1, t), userId, targetId)
    ensures r.1 == WithRows(s, t, Rows(r.1, t))
  {
    var rows := Rows(s, t);
    match FindFirst(rows, userId, targetId)
    case None => (NotFound(FavoriteNotFoundMessage(t)), s)
    case Some(i) =>
      var rows' := RemoveAt(rows, i);
      RemoveAtElements(rows, i);
      RemoveAtKeepsUniquePairs(rows, i);
      (Ok(DeletedBody(t)), WithRows(s, t, rows'))
  }

  /** The body of GET /users/favorites/<user_id>. */
  datatype Listing = Listing(favoritePlanets: seq<Object>, favoritePerson: seq<Object>)

  /** The listed favorites of one kind. */
  function Listed(l: Listing, t: RoutedTarget): seq<Object>
  {
    if t == PlanetTarget then l.favoritePlanets else l.favoritePerson
  }

  /** The JSON array of a list of favorite rows, in the same order. */
  function SerializeRows(t: Target, rows: seq<Favorite>): (r: seq<Object>)
    ensures |r| == |rows|
    ensures forall i :: 0 <= i < |rows| ==> ParseFavorite(t, r[i]) == Some(rows[i])
    ensures forall i :: 0 <= i < |rows| ==> Keys(r[i]) == ["id", "user_id", TargetColumn(t)]
  {
    if rows == [] then []
    else
      ParseSerializedFavorite(t, rows[0]);
      [SerializeFavorite(t, rows[0])] + SerializeRows(t, rows[1..])
  }

  /**
   GET /users/favorites/<user_id>: every favorite planet and favorite person
   row of that user, each in storage order, and nothing else.
   */
  function GetUserFavorites(s: Store, userId: int): (r: Listing)
    ensures forall t: RoutedTarget :: |Listed(r, t)| == |SelectUser(Rows(s, t), userId)|
    ensures forall t: RoutedTarget, i :: 0 <= i < |Listed(r, t)| ==>
      ParseFavorite(t, Listed(r, t)[i]) == Some(SelectUser(Rows(s, t), userId)[i])
    ensures forall t: RoutedTarget, i :: 0 <= i < |Listed(r, t)| ==> Keys(Listed(r, t)[i]) == ["id", "user_id", TargetColumn(t)]
    ensures forall t: RoutedTarget, i :: 0 <= i < |Listed(r, t)| ==>
      var f := SelectUser(Rows(s, t), userId)[i]; f in Rows(s, t) && f.userId == userId
  {
    Listing(SerializeRows(PlanetTarget, SelectUser(s.favoritePlanets, userId)),
            SerializeRows(PersonTarget, SelectUser(s.favoritePeople, userId)))
  }

  /** GET /planets/<planet_id>: 404 exactly when the id is unknown, else that planet's public view. */
  function GetOnePlanet(s: Store, planetId: int): (r: Outcome)
    ensures r.NotFound? <==> planetId !in s.planets
    ensures r.NotFound? ==> r.error == "Planeta no encontrado"
    ensures r.Ok? || r.NotFound?
    ensures r.Ok? ==> Keys(r.body) == ["id", "name", "climate", "gravity"]
    ensures r.Ok? ==> Get(r.body, "name") == Some(Str(s.planets[planetId].name))
    ensures r.Ok? ==> Get(r.body, "climate") == Some(Str(s.planets[planetId].climate))
    ensures r.Ok? ==> Get(r.body, "gravity") == Some(Str(s.planets[planetId].gravity))
    ensures r.Ok? && KeysMatch(s) ==> Get(r.body, "id") == Some(Int(planetId))
  {
    if planetId !in s.planets then NotFound("Planeta no encontrado")
    else Ok(SerializePlanet(s.planets[planetId]))
  }

  /** GET /person/<person_id>: 404 exactly when the id is unknown, else that person's public view. */
  function GetOnePerson(s: Store, personId: int): (r: Outcome)
    ensures r.NotFound? <==> personId !in s.people
    ensures r.NotFound? ==> r.error == "Personaje no encontrado"
    ensures r.Ok? || r.NotFound?
    ensures r.Ok? ==> Keys(r.body) == ["id", "name", "skin_color"]
    ensures r.Ok? ==> Get(r.body, "name") == Some(Str(s.people[personId].name))
    ensures r.Ok? ==> Get(r.body, "skin_color") == Some(Str(s.people[personId].skinColor))
    ensures r.Ok? ==> Get(r.body, "home_world_id") == None
    ensures r.Ok? && KeysMatch(s) ==> Get(r.body, "id") == Some(Int(personId))
  {
    if personId !in s.people then NotFound("Personaje no encontrado")
    else Ok(SerializePerson(s.people[personId]))
  }

  /**
   `query.all()` followed by `serialize` on each row: every row of the table
   appears exactly once. The order of rows in a table scan is not modelled.
   */
  method SerializeAll<K, T>(m: map<K, T>, serialize: T -> Object) returns (r: seq<Object>, ghost scanned: seq<K>)
    ensures |r| == |m|
    ensures forall k :: k in m ==> serialize(m[k]) in r
    ensures forall i :: 0 <= i < |r| ==> exists k :: k in m && r[i] == serialize(m[k])
    ensures |scanned| == |r|
    ensures forall i :: 0 <= i < |r| ==> scanned[i] in m && r[i] == serialize(m[scanned[i]])
    ensures forall i, j :: 0 <= i < j < |scanned| ==> scanned[i] != scanned[j]
  {
    r, scanned := [], [];
    var remaining := m.Keys;
    while remaining != {}
      invariant remaining <= m.Keys
      invariant |r| + |remaining| == |m.Keys|
      invariant |scanned| == |r|
      invariant forall k :: k in m && k !in remaining ==> serialize(m[k]) in r
      invariant forall i :: 0 <= i < |r| ==> scanned[i] in m && r[i] == serialize(m[scanned[i]])
      invariant forall i :: 0 <= i < |scanned| ==> scanned[i] !in remaining
      invariant forall i, j :: 0 <= i < j < |scanned| ==> scanned[i] != scanned[j]
      decreases remaining
    {
      var k :| k in remaining;
      r, scanned := r + [serialize(m[k])], scanned + [k];
      remaining := remaining - {k};
    }
    assert |m| == |m.Keys|;
  }

  /** GET /planets */
  method GetAllPlanets(s: Store) returns (r: seq<Object>)
    ensures |r| == |s.planets|
    ensures forall k :: k in s.planets ==> SerializePlanet(s.planets[k]) in r
    ensures forall i :: 0 <= i < |r| ==> exists k :: k in s.planets && r[i] == SerializePlanet(s.planets[k])
  {
    ghost var scanned;
    r, scanned := SerializeAll(s.planets, SerializePlanet);
    forall i | 0 <= i < |r|
      ensures exists k :: k in s.planets && r[i] == SerializePlanet(s.planets[k])
    {
      var k: int := scanned[i];
      assert k in s.planets && r[i] == SerializePlanet(s.planets[k]);
    }
  }

  /** GET /person */
  method GetAllPeople(s: Store) returns (r: seq<Object>)
    ensures |r| == |s.people|
    ensures forall k :: k in s.people ==> SerializePerson(s.people[k]) in r
    ensures forall i :: 0 <= i < |r| ==> exists k :: k in s.people && r[i] == SerializePerson(s.people[k])
  {
    ghost var scanned;
    r, scanned := SerializeAll(s.people, SerializePerson);
    forall i | 0 <= i < |r|
      ensures exists k :: k in s.people && r[i] == SerializePerson(s.people[k])
    {
      var k: int := scanned[i];
      assert k in s.people && r[i] == SerializePerson(s.people[k]);
    }
  }

  /** GET /users: no listed object carries a password. */
  method GetAllUsers(s: Store) returns (r: seq<Object>)
    ensures |r| == |s.users|
    ensures forall k :: k in s.users ==> SerializeUser(s.users[k]) in r
    ensures forall i :: 0 <= i < |r| ==> exists k :: k in s.users && r[i] == SerializeUser(s.users[k])
    ensures forall i :: 0 <= i < |r| ==> Get(r[i], "password") == None
  {
    ghost var scanned;
    r, scanned := SerializeAll(s.users, SerializeUser);
    forall i | 0 <= i < |r|
      ensures exists k :: k in s.users && r[i] == SerializeUser(s.users[k])
    {
      var k: int := scanned[i];
      assert k in s.users && r[i] == SerializeUser(s.users[k]);
    }
  }

  /** The row a successful add appends: the next free id, the user and the target. */
  lemma AddFavoriteAppends(s: Store, t: RoutedTarget, userId: int, targetId: int)
    requires TargetExists(s, t, targetId) && !HasPair(Rows(s, t), userId, targetId)
    ensures var f := Favorite(FreshId(Rows(s, t)), userId, targetId);
      AddFavorite(s, t, userId, targetId) == (Created(SerializeFavorite(t, f)), WithRows(s, t, Rows(s, t) + [f]))
  {
  }

  /** Adding a favorite keeps every invariant; the target was checked to exist. */
  lemma AddFavoriteKeepsValid(s: Store, t: RoutedTarget, userId: int, targetId: int)
    requires Valid(s)
    ensures Valid(AddFavorite(s, t, userId, targetId).1)
  {
    var rows := Rows(s, t);
    if TargetExists(s, t, targetId) && !HasPair(rows, userId, targetId) {
      AddFavoriteAppends(s, t, userId, targetId);
      AppendKeepsValid(s, t, Favorite(FreshId(rows), userId, targetId));
    }
  }

  /** Deleting a favorite keeps every invariant. */
  lemma DeleteFavoriteKeepsValid(s: Store, t: RoutedTarget, userId: int, targetId: int)
    requires Valid(s)
    ensures Valid(DeleteFavorite(s, t, userId, targetId).1)
  {
    match FindFirst(Rows(s, t), userId, targetId)
    case None =>
    case Some(i) =>
      DeleteFavoriteAt(s, t, userId, targetId, i);
      RemoveAtKeepsValid(s, t, i);
  }

  /** A repeated add of the same pair is refused with 400 and changes nothing. */
  lemma AddTwiceConflicts(s: Store, t: RoutedTarget, userId: int, targetId: int)
    requires AddFavorite(s, t, userId, targetId).0.Created?
    ensures var s1 := AddFavorite(s, t, userId, targetId).1;
      AddFavorite(s1, t, userId, targetId) == (Conflict(DuplicateMessage(t)), s1)
  {
    var s1 := AddFavorite(s, t, userId, targetId).1;
    assert Matches(Rows(s1, t)[|Rows(s, t)|], userId, targetId);
  }

  /**
   A successful add followed by a delete of the same pair answers 200 and
   gives back the original database; deleting once more answers 404.
   */
  lemma AddThenDelete(s: Store, t: RoutedTarget, userId: int, targetId: int)
    requires AddFavorite(s, t, userId, targetId).0.Created?
    ensures var s1 := AddFavorite(s, t, userId, targetId).1;
      DeleteFavorite(s1, t, userId, targetId) == (Ok(DeletedBody(t)), s)
    ensures DeleteFavorite(s, t, userId, targetId) == (NotFound(FavoriteNotFoundMessage(t)), s)
  {
    var rows := Rows(s, t);
    var f := Favorite(FreshId(rows), userId, targetId);
    AddFavoriteAppends(s, t, userId, targetId);
    var s1 := WithRows(s, t, rows + [f]);
    FindFirstAppend(rows, f, userId, targetId);
    DeleteFavoriteAt(s1, t, userId, targetId, |rows|);
    assert RemoveAt(rows + [f], |rows|) == rows;
    WithRowsRestores(s, t, rows + [f]);
  }

  /** A delete whose lookup finds position `i` removes exactly that row. */
  lemma DeleteFavoriteAt(s: Store, t: RoutedTarget, userId: int, targetId: int, i: nat)
    requires FindFirst(Rows(s, t), userId, targetId) == Some(i)
    ensures DeleteFavorite(s, t, userId, targetId) == (Ok(DeletedBody(t)), WithRows(s, t, RemoveAt(Rows(s, t), i)))
  {
  }

  /** After a successful add the user's listing shows the new favorite last, and the other kind is unchanged. */
  lemma ListingAfterAdd(s: Store, t: RoutedTarget, userId: int, targetId: int)
    requires AddFavorite(s, t, userId, targetId).0.Created?
    ensures var (o, s1) := AddFavorite(s, t, userId, targetId);
      && Listed(GetUserFavorites(s1, userId), t) == Listed(GetUserFavorites(s, userId), t) + [o.body]
      && forall u: RoutedTarget :: u != t ==> Listed(GetUserFavorites(s1, userId), u) == Listed(GetUserFavorites(s, userId), u)
  {
    var (o, s1) := AddFavorite(s, t, userId, targetId);
    var rows := Rows(s, t);
    var f := Favorite(FreshId(rows), userId, targetId);
    AddFavoriteAppends(s, t, userId, targetId);
    SelectUserAppend(rows, [f], userId);
    assert SelectUser([f], userId) == [f];
    var before := SelectUser(rows, userId);
    SerializeRowsAppend(t, before, f);
    ListedRows(s, userId, t);
    ListedRows(s1, userId, t);
    forall u: RoutedTarget | u != t
      ensures Listed(GetUserFavorites(s1, userId), u) == Listed(GetUserFavorites(s, userId), u)
    {
      ListedRows(s, userId, u);
      ListedRows(s1, userId, u);
    }
  }

  lemma ListedRows(s: Store, userId: int, t: RoutedTarget)
    ensures Listed(GetUserFavorites(s, userId), t) == SerializeRows(t, SelectUser(Rows(s, t), userId))
  {
  }

  lemma {:induction false} SerializeRowsAppend(t: Target, rows: seq<Favorite>, f: Favorite)
    ensures SerializeRows(t, rows + [f]) == SerializeRows(t, rows) + [SerializeFavorite(t, f)]
  {
    if rows == [] {
      assert [f][1..] == [];
    } else {
      assert (rows + [f])[1..] == rows[1..] + [f];
      SerializeRowsAppend(t, rows[1..], f);
    }
  }

  /** After a successful delete in a valid database the user's listing no longer shows that target. */
  lemma ListingAfterDelete(s: Store, t: RoutedTarget, userId: int, targetId: int)
    requires Valid(s)
    ensures var s1 := DeleteFavorite(s, t, userId, targetId).1;
      forall o :: o in Listed(GetUserFavorites(s1, userId), t) ==>
        ParseFavorite(t, o).Some? && ParseFavorite(t, o).value.targetId != targetId
  {
    var s1 := DeleteFavorite(s, t, userId, targetId).1;
    assert TableValid(s, t);
    ListedRows(s1, userId, t);
    ListedWithoutPair(t, Rows(s1, t), userId, targetId);
  }

  /** A table with no row for the pair lists, for that user, nothing pointing to the target. */
  lemma ListedWithoutPair(t: Target, rows: seq<Favorite>, userId: int, targetId: int)
    requires !HasPair(rows, userId, targetId)
    ensures forall o :: o in SerializeRows(t, SelectUser(rows, userId)) ==>
      ParseFavorite(t, o).Some? && ParseFavorite(t, o).value.targetId != targetId
  {
    var sel := SelectUser(rows, userId);
    var l := SerializeRows(t, sel);
    forall o | o in l
      ensures ParseFavorite(t, o).Some? && ParseFavorite(t, o).value.targetId != targetId
    {
      var i :| 0 <= i < |l| && l[i] == o;
      AbsentPairOtherTarget(rows, sel[i], userId, targetId);
    }
  }

  /**
   A worked example on a database holding only planet 1: user 3 favorites it
   (201, row id 1), repeats the request (400), deletes it (200) and deletes
   it again (404).
   */
  lemma PlanetFavoriteScenario()
    ensures var s := Store(map[], map[1 := Planet(1, "Tatooine", "arid", "1 standard")], map[], map[], [], [], []);
      var (a1, s1) := AddFavorite(s, PlanetTarget, 3, 1);
      var (a2, s2) := AddFavorite(s1, PlanetTarget, 3, 1);
      var (d1, s3) := DeleteFavorite(s2, PlanetTarget, 3, 1);
      var (d2, s4) := DeleteFavorite(s3, PlanetTarget, 3, 1);
      && a1 == Created([Field("id", Int(1)), Field("user_id", Int(3)), Field("planet_id", Int(1))]) && Status(a1) == 201
      && Status(a2) == 400
      && Status(d1) == 200 && s3 == s
      && Status(d2) == 404 && s4 == s
  {
    var s := Store(map[], map[1 := Planet(1, "Tatooine", "arid", "1 standard")], map[], map[], [], [], []);
    AddFavoriteAppends(s, PlanetTarget, 3, 1);
    AddTwiceConflicts(s, PlanetTarget, 3, 1);
    AddThenDelete(s, PlanetTarget, 3, 1);
  }

}

=== FILE: json.dfy ===
/**
 A JSON object as the handlers build it: a Python dict literal, that is, an
 ordered list of key/value pairs in the order the literal lists them.
 Only the scalar values the serializers produce are needed.
 */
module Json {
  import opened Wrappers

  datatype Value = Int(i: int) | Str(s: string) | Bool(b: bool)

  datatype Field = Field(key: string, value: Value)

  type Object = seq<Field>

  /** The keys of an object, in order. */
  function Keys(o: Object): (ks: seq<string>)
    ensures |ks| == |o|
    ensures forall i :: 0 <= i < |o| ==> ks[i] == o[i].key
  {
    seq(|o|, i requires 0 <= i < |o| => o[i].key)
  }

  /** Reads the value stored under `key`, as a client reading the JSON does. */
  function Get(o: Object, key: string): Option<Value>
  {
    if o == [] then None
    else if o[0].key == key then Some(o[0].value)
    else Get(o[1..], key)
  }

  /** A key the object does not carry reads as absent. */
  lemma {:induction false} GetAbsent(o: Object, key: string)
    requires key !in Keys(o)
    ensures Get(o, key) == None
  {
    if o != [] {
      assert Keys(o) == [o[0].key] + Keys(o[1..]);
      GetAbsent(o[1..], key);
    }
  }

  /** The value read under a key is the one of the first field carrying it. */
  lemma {:induction false} GetFirst(o: Object, i: nat)
    requires i < |o|
    requires forall j :: 0 <= j < i ==> o[j].key != o[i].key
    ensures Get(o, o[i].key) == Some(o[i].value)
  {
    if i > 0 {
      GetFirst(o[1..], i - 1);
    }
  }

}

=== FILE: models.dfy ===
/**
 The relational schema: the four catalogue entities, the three favorite
 tables, and the `serialize` projection of each record, which decides which
 columns a client ever sees.
 */
module Models {
  import opened Wrappers
  import opened Json

  datatype User = User(id: int, email: string, password: string, isActive: bool)

  datatype Planet = Planet(id: int, name: string, climate: string, gravity: string)

  /** `homeWorldId` is the foreign key to the Planet the person comes from. */
  datatype Person = Person(id: int, name: string, skinColor: string, homeWorldId: int)

  datatype Vehicle = Vehicle(id: int, name: string, crew: string, consumables: string)

  /** The kind of entity a favorite points to; each kind has its own table. */
  datatype Target = PlanetTarget | PersonTarget | VehicleTarget

  /**
   A row of FavoritePlanet, FavoritePerson or FavoriteVehicle. The three tables
   have the same shape (own id, user id, target id); they differ only in the
   name of the target column, given by `TargetColumn`.
   */
  datatype Favorite = Favorite(id: int, userId: int, targetId: int)

  function TargetColumn(t: Target): string
  {
    match t
    case PlanetTarget => "planet_id"
    case PersonTarget => "person_id"
    case VehicleTarget => "vehicle_id"
  }

  /** The public view of a user: the password is not part of it. */
  function SerializeUser(u: User): (o: Object)
    ensures Keys(o) == ["id", "email", "is_active"]
    ensures Get(o, "id") == Some(Int(u.id))
    ensures Get(o, "email") == Some(Str(u.email))
    ensures Get(o, "is_active") == Some(Bool(u.isActive))
    ensures Get(o, "password") == None
  {
    var o := [Field("id", Int(u.id)), Field("email", Str(u.email)), Field("is_active", Bool(u.isActive))];
    assert o[0].key == "id" && o[1].key == "email" && o[2].key == "is_active";
    GetFirst(o, 0); GetFirst(o, 1); GetFirst(o, 2);
    GetAbsent(o, "password");
    o
  }

  /** The public view of a planet: no relationship data. */
  function SerializePlanet(p: Planet): (o: Object)
    ensures Keys(o) == ["id", "name", "climate", "gravity"]
    ensures Get(o, "id") == Some(Int(p.id))
    ensures Get(o, "name") == Some(Str(p.name))
    ensures Get(o, "climate") == Some(Str(p.climate))
    ensures Get(o, "gravity") == Some(Str(p.gravity))
  {
    var o := [Field("id", Int(p.id)), Field("name", Str(p.name)),
              Field("climate", Str(p.climate)), Field("gravity", Str(p.gravity))];
    assert o[0].key == "id" && o[1].key == "name" && o[2].key == "climate" && o[3].key == "gravity";
    GetFirst(o, 0); GetFirst(o, 1); GetFirst(o, 2); GetFirst(o, 3);
    o
  }

  /** The public view of a person: the home world foreign key is not part of it. */
  function SerializePerson(p: Person): (o: Object)
    ensures Keys(o) == ["id", "name", "skin_color"]
    ensures Get(o, "id") == Some(Int(p.id))
    ensures Get(o, "name") == Some(Str(p.name))
    ensures Get(o, "skin_color") == Some(Str(p.skinColor))
    ensures Get(o, "home_world_id") == None
  {
    var o := [Field("id", Int(p.id)), Field("name", Str(p.name)), Field("skin_color", Str(p.skinColor))];
    assert o[0].key == "id" && o[1].key == "name" && o[2].key == "skin_color";
    GetFirst(o, 0); GetFirst(o, 1); GetFirst(o, 2);
    GetAbsent(o, "home_world_id");
    o
  }

  function SerializeVehicle(v: Vehicle): (o: Object)
    ensures Keys(o) == ["id", "name", "crew", "consumables"]
    ensures Get(o, "id") == Some(Int(v.id))
    ensures Get(o, "name") == Some(Str(v.name))
    ensures Get(o, "crew") == Some(Str(v.crew))
    ensures Get(o, "consumables") == Some(Str(v.consumables))
  {
    var o := [Field("id", Int(v.id)), Field("name", Str(v.name)),
              Field("crew", Str(v.crew)), Field("consumables", Str(v.consumables))];
    assert o[0].key == "id" && o[1].key == "name" && o[2].key == "crew" && o[3].key == "consumables";
    GetFirst(o, 0); GetFirst(o, 1); GetFirst(o, 2); GetFirst(o, 3);
    o
  }

  function SerializeFavorite(t: Target, f: Favorite): (o: Object)
    ensures Keys(o) == ["id", "user_id", TargetColumn(t)]
    ensures Get(o, "id") == Some(Int(f.id))
    ensures Get(o, "user_id") == Some(Int(f.userId))
    ensures Get(o, TargetColumn(t)) == Some(Int(f.targetId))
  {
    var o := [Field("id", Int(f.id)), Field("user_id", Int(f.userId)), Field(TargetColumn(t), Int(f.targetId))];
    assert o[0].key == "id" && o[1].key == "user_id" && o[2].key == TargetColumn(t);
    GetFirst(o, 0); GetFirst(o, 1); GetFirst(o, 2);
    o
  }

  /** Reads a favorite back from its JSON form, as a client of the API would. */
  function ParseFavorite(t: Target, o: Object): Option<Favorite>
  {
    match (Get(o, "id"), Get(o, "user_id"), Get(o, TargetColumn(t)))
    case (Some(Int(id)), Some(Int(userId)), Some(Int(targetId))) => Some(Favorite(id, userId, targetId))
    case _ => None
  }

  /** Two users look the same to a client exactly when id, email and is_active agree: the password never shows. */
  lemma SerializeUserExposes(a: User, b: User)
    ensures SerializeUser(a) == SerializeUser(b) <==> a.id == b.id && a.email == b.email && a.isActive == b.isActive
  {
  }

  /** Every planet column is exposed, so distinct planets serialize differently. */
  lemma SerializePlanetExposes(a: Planet, b: Planet)
    ensures SerializePlanet(a) == SerializePlanet(b) <==> a == b
  {
  }

  /** Two persons look the same to a client exactly when id, name and skin color agree: the home world is hidden. */
  lemma SerializePersonExposes(a: Person, b: Person)
    ensures SerializePerson(a) == SerializePerson(b) <==> a.id == b.id && a.name == b.name && a.skinColor == b.skinColor
  {
  }

  lemma SerializeVehicleExposes(a: Vehicle, b: Vehicle)
    ensures SerializeVehicle(a) == SerializeVehicle(b) <==> a == b
  {
  }

  /** A serialized favorite reads back as the stored row, unchanged. */
  lemma ParseSerializedFavorite(t: Target, f: Favorite)
    ensures ParseFavorite(t, SerializeFavorite(t, f)) == Some(f)
  {
  }

}

=== FILE: store.dfy ===
/**
 The database as an immutable value: one map from id to row per catalogue
 table and one sequence of rows, in storage order, per favorite table.
 Also the two administrative writes the schema constrains: inserting a user
 (primary key and unique email) and deleting a catalogue entity together
 with the favorite rows its `cascade='all, delete-orphan'` relationship owns.
 */
module Store {
  import opened Wrappers
  import opened Models
  import opened Tables

  datatype Store = Store(
    users: map<int, User>,
    planets: map<int, Planet>,
    people: map<int, Person>,
    vehicles: map<int, Vehicle>,
    favoritePlanets: seq<Favorite>,
    favoritePeople: seq<Favorite>,
    favoriteVehicles: seq<Favorite>)

  /** The favorite table of one kind. */
  function Rows(s: Store, t: Target): seq<Favorite>
  {
    match t
    case PlanetTarget => s.favoritePlanets
    case PersonTarget => s.favoritePeople
    case VehicleTarget => s.favoriteVehicles
  }

  /** The store with the favorite table of kind `t` replaced and everything else kept. */
  function WithRows(s: Store, t: Target, rows: seq<Favorite>): (r: Store)
    ensures Rows(r, t) == rows
    ensures forall u :: u != t ==> Rows(r, u) == Rows(s, u)
    ensures r.users == s.users && r.planets == s.planets && r.people == s.people && r.vehicles == s.vehicles
  {
    match t
    case PlanetTarget => s.(favoritePlanets := rows)
    case PersonTarget => s.(favoritePeople := rows)
    case VehicleTarget => s.(favoriteVehicles := rows)
  }

  /** `Planet.query.get(id)` (or Person, Vehicles) finds a row. */
  predicate TargetExists(s: Store, t: Target, id: int)
  {
    match t
    case PlanetTarget => id in s.planets
    case PersonTarget => id in s.people
    case VehicleTarget => id in s.vehicles
  }

  /** Every catalogue row is stored under its own primary key. */
  predicate KeysMatch(s: Store)
  {
    && (forall k :: k in s.users ==> s.users[k].id == k)
    && (forall k :: k in s.planets ==> s.planets[k].id == k)
    && (forall k :: k in s.people ==> s.people[k].id == k)
    && (forall k :: k in s.vehicles ==> s.vehicles[k].id == k)
  }

  /** The `unique=True` constraint on `User.email`. */
  predicate EmailsUnique(users: map<int, User>)
  {
    forall a, b :: a in users && b in users && users[a].email == users[b].email ==> a == b
  }

  /** A favorite table keeps its primary key, one row per pair, and no row pointing to a missing target. */
  predicate TableValid(s: Store, t: Target)
  {
    && UniqueIds(Rows(s, t))
    && UniquePairs(Rows(s, t))
    && (forall i :: 0 <= i < |Rows(s, t)| ==> TargetExists(s, t, Rows(s, t)[i].targetId))
  }

  /** The invariants every reachable database state keeps. */
  predicate Valid(s: Store)
  {
    && KeysMatch(s)
    && EmailsUnique(s.users)
    && TableValid(s, PlanetTarget)
    && TableValid(s, PersonTarget)
    && TableValid(s, VehicleTarget)
  }

  /** Some user already has this email. */
  predicate EmailTaken(users: map<int, User>, email: string)
  {
    exists k :: k in users && users[k].email == email
  }

  /**
   Inserting a user: the database refuses a duplicate primary key or a
   duplicate email (None), and otherwise stores the row.
   */
  function InsertUser(s: Store, u: User): (r: Option<Store>)
    ensures r.None? <==> u.id in s.users || EmailTaken(s.users, u.email)
    ensures r.Some? ==> u.id in r.value.users && r.value.users[u.id] == u
    ensures r.Some? ==> forall k :: k in s.users ==> k in r.value.users && r.value.users[k] == s.users[k]
    ensures r.Some? ==> r.value.users.Keys == s.users.Keys + {u.id}
    ensures r.Some? ==> r.value == s.(users := r.value.users)
    ensures r.Some? && EmailsUnique(s.users) ==> EmailsUnique(r.value.users)
  {
    if u.id in s.users || EmailTaken(s.users, u.email) then None
    else Some(s.(users := s.users[u.id := u]))
  }

  /**
   Deleting the catalogue row `id` of kind `t` (a Planet, Person or Vehicles
   row). The cascade on the entity's favorite relationship removes the
   favorite rows pointing to it; no other table is touched, in particular
   deleting a planet leaves the Person rows whose home world it was.
   */
  function DeleteEntity(s: Store, t: Target, id: int): (r: Store)
    ensures !TargetExists(r, t, id)
    ensures forall y :: y != id ==> (TargetExists(r, t, y) <==> TargetExists(s, t, y))
    ensures forall f :: f in Rows(r, t) <==> f in Rows(s, t) && f.targetId != id
    ensures Rows(r, t) == RemoveTarget(Rows(s, t), id)
    ensures forall u :: u != t ==> Rows(r, u) == Rows(s, u)
    ensures r.users == s.users
    ensures t == PlanetTarget ==> r.planets == s.planets - {id}
    ensures t == PersonTarget ==> r.people == s.people - {id}
    ensures t == VehicleTarget ==> r.vehicles == s.vehicles - {id}
    ensures t != PlanetTarget ==> r.planets == s.planets
    ensures t != PersonTarget ==> r.people == s.people
    ensures t != VehicleTarget ==> r.vehicles == s.vehicles
  {
    var s' := match t
      case PlanetTarget => s.(planets := s.planets - {id})
      case PersonTarget => s.(people := s.people - {id})
      case VehicleTarget => s.(vehicles := s.vehicles - {id});
    WithRows(s', t, RemoveTarget(Rows(s, t), id))
  }

  /** Putting the original favorite table back gives the original store. */
  lemma WithRowsRestores(s: Store, t: Target, rows: seq<Favorite>)
    ensures WithRows(WithRows(s, t, rows), t, Rows(s, t)) == s
  {
  }

  /** Replacing one favorite table by one that is itself valid keeps every invariant. */
  lemma WithRowsKeepsValid(s: Store, t: Target, rows: seq<Favorite>)
    requires Valid(s)
    requires UniqueIds(rows) && UniquePairs(rows)
    requires forall i :: 0 <= i < |rows| ==> TargetExists(s, t, rows[i].targetId)
    ensures Valid(WithRows(s, t, rows))
  {
    var r := WithRows(s, t, rows);
    assert forall u: Target, y :: TargetExists(r, u, y) == TargetExists(s, u, y);
  }

  /** Appending a favorite for an existing target and a new pair, under a fresh id, keeps every invariant. */
  lemma AppendKeepsValid(s: Store, t: Target, f: Favorite)
    requires Valid(s)
    requires TargetExists(s, t, f.targetId)
    requires !HasPair(Rows(s, t), f.userId, f.targetId)
    requires forall i :: 0 <= i < |Rows(s, t)| ==> Rows(s, t)[i].id != f.id
    ensures Valid(WithRows(s, t, Rows(s, t) + [f]))
  {
    var rows := Rows(s, t);
    assert TableValid(s, t);
    AppendKeepsUnique(rows, f);
    assert forall i :: 0 <= i < |rows + [f]| ==> TargetExists(s, t, (rows + [f])[i].targetId) by {
      assert forall i :: 0 <= i < |rows| ==> (rows + [f])[i] == rows[i];
    }
    WithRowsKeepsValid(s, t, rows + [f]);
  }

  /** Deleting one favorite row keeps every invariant. */
  lemma RemoveAtKeepsValid(s: Store, t: Target, i: nat)
    requires Valid(s)
    requires i < |Rows(s, t)|
    ensures Valid(WithRows(s, t, RemoveAt(Rows(s, t), i)))
  {
    var rows := Rows(s, t);
    var rows' := RemoveAt(rows, i);
    assert TableValid(s, t);
    RemoveAtKeepsUniquePairs(rows, i);
    RemoveAtKeepsUniqueIds(rows, i);
    RemoveAtElements(rows, i);
    assert forall k :: 0 <= k < |rows'| ==> TargetExists(s, t, rows'[k].targetId) by {
      assert forall k :: 0 <= k < |rows'| ==> rows'[k] in rows;
    }
    WithRowsKeepsValid(s, t, rows');
  }

  /** Inserting a user keeps every invariant. */
  lemma InsertUserKeepsValid(s: Store, u: User)
    requires Valid(s)
    requires InsertUser(s, u).Some?
    ensures Valid(InsertUser(s, u).value)
  {
  }

  /** The cascade leaves no orphan: every invariant, referential integrity of the favorites included, survives an entity delete. */
  lemma DeleteEntityKeepsValid(s: Store, t: Target, id: int)
    requires Valid(s)
    ensures Valid(DeleteEntity(s, t, id))
  {
    var r := DeleteEntity(s, t, id);
    RemoveTargetKeepsUnique(Rows(s, t), id);
    forall i | 0 <= i < |Rows(r, t)|
      ensures TargetExists(r, t, Rows(r, t)[i].targetId)
    {
      var f := Rows(r, t)[i];
      assert f in Rows(s, t);
    }
  }

  /** Deleting an entity removes only its own favorites: the rows of every other entity of that kind keep their order. */
  lemma DeleteEntityKeepsOtherFavorites(s: Store, t: Target, id: int, other: int)
    requires other != id
    ensures SelectTarget(Rows(DeleteEntity(s, t, id), t), other) == SelectTarget(Rows(s, t), other)
  {
    RemoveTargetKeepsOthers(Rows(s, t), id, other);
  }

}

=== FILE: tables.dfy ===
/**
 The query layer over one favorite table, held as a sequence of rows in
 storage order: the `filter_by(...).first()` lookup, the per-user listing,
 the id the database assigns to a new row, single-row delete and the
 delete-by-target step of the cascade.
 */
module Tables {
  import opened Wrappers
  import opened Models

  /** The row links `userId` to `targetId`. */
  predicate Matches(f: Favorite, userId: int, targetId: int)
  {
    f.userId == userId && f.targetId == targetId
  }

  /** Some row of the table links `userId` to `targetId`. */
  predicate HasPair(rows: seq<Favorite>, userId: int, targetId: int)
  {
    exists i :: 0 <= i < |rows| && Matches(rows[i], userId, targetId)
  }

  /** At most one row per (user id, target id) pair. */
  predicate UniquePairs(rows: seq<Favorite>)
  {
    forall i, j :: 0 <= i < |rows| && 0 <= j < |rows| && Matches(rows[i], rows[j].userId, rows[j].targetId) ==> i == j
  }

  /** The primary key: no two rows share an id. */
  predicate UniqueIds(rows: seq<Favorite>)
  {
    forall i, j :: 0 <= i < |rows| && 0 <= j < |rows| && rows[i].id == rows[j].id ==> i == j
  }

  /** `filter_by(user_id=…, <target>_id=…).first()`: the position of the first matching row. */
  function FindFirst(rows: seq<Favorite>, userId: int, targetId: int): (r: Option<nat>)
    ensures r.None? <==> !HasPair(rows, userId, targetId)
    ensures r.Some? ==> r.value < |rows| && Matches(rows[r.value], userId, targetId)
    ensures r.Some? ==> forall j :: 0 <= j < r.value ==> !Matches(rows[j], userId, targetId)
  {
    if rows == [] then None
    else if Matches(rows[0], userId, targetId) then Some(0)
    else
      match FindFirst(rows[1..], userId, targetId)
      case None =>
        assert forall i :: 1 <= i < |rows| ==> rows[i] == rows[1..][i - 1];
        None
      case Some(i) => Some(i + 1)
  }

  /** A row appended for a pair not yet present is the first row of that pair. */
  lemma {:induction false} FindFirstAppend(rows: seq<Favorite>, f: Favorite, userId: int, targetId: int)
    requires !HasPair(rows, userId, targetId)
    requires Matches(f, userId, targetId)
    ensures FindFirst(rows + [f], userId, targetId) == Some(|rows|)
  {
    if rows != [] {
      assert !Matches(rows[0], userId, targetId);
      assert (rows + [f])[1..] == rows[1..] + [f];
      assert forall k :: 0 <= k < |rows| - 1 ==> rows[1..][k] == rows[k + 1];
      FindFirstAppend(rows[1..], f, userId, targetId);
    }
  }

  /** A stored row of a user who has no row for `targetId` points elsewhere. */
  lemma AbsentPairOtherTarget(rows: seq<Favorite>, f: Favorite, userId: int, targetId: int)
    requires !HasPair(rows, userId, targetId)
    requires f in rows && f.userId == userId
    ensures f.targetId != targetId
  {
    var j :| 0 <= j < |rows| && rows[j] == f;
    assert !Matches(rows[j], userId, targetId);
  }

  /** The table with the row at position `i` deleted. */
  function RemoveAt(rows: seq<Favorite>, i: nat): seq<Favorite>
    requires i < |rows|
  {
    rows[..i] + rows[i + 1..]
  }

  /** The id the database gives a new row: one past the largest id in use, and 1 for an empty table. */
  function FreshId(rows: seq<Favorite>): (r: int)
    ensures r >= 1
    ensures forall i :: 0 <= i < |rows| ==> rows[i].id < r
  {
    if rows == [] then 1
    else
      var r := FreshId(rows[..|rows| - 1]);
      if rows[|rows| - 1].id < r then r else rows[|rows| - 1].id + 1
  }

  /** `filter_by(user_id=…).all()`: the rows of one user, in storage order. */
  function SelectUser(rows: seq<Favorite>, userId: int): (r: seq<Favorite>)
    ensures forall f :: f in r <==> f in rows && f.userId == userId
    ensures |r| <= |rows|
  {
    if rows == [] then []
    else if rows[0].userId == userId then [rows[0]] + SelectUser(rows[1..], userId)
    else SelectUser(rows[1..], userId)
  }

  /** The rows pointing to one target, in storage order. */
  function SelectTarget(rows: seq<Favorite>, targetId: int): (r: seq<Favorite>)
    ensures forall f :: f in r <==> f in rows && f.targetId == targetId
    ensures |r| <= |rows|
  {
    if rows == [] then []
    else if rows[0].targetId == targetId then [rows[0]] + SelectTarget(rows[1..], targetId)
    else SelectTarget(rows[1..], targetId)
  }

  /** The delete-orphan step of the cascade: the table without the rows pointing to `targetId`. */
  function RemoveTarget(rows: seq<Favorite>, targetId: int): (r: seq<Favorite>)
    ensures forall f :: f in r <==> f in rows && f.targetId != targetId
    ensures |r| <= |rows|
  {
    if rows == [] then []
    else if rows[0].targetId == targetId then RemoveTarget(rows[1..], targetId)
    else [rows[0]] + RemoveTarget(rows[1..], targetId)
  }

  /** Listing a user's rows keeps storage order: it distributes over concatenation. */
  lemma {:induction false} SelectUserAppend(a: seq<Favorite>, b: seq<Favorite>, userId: int)
    ensures SelectUser(a + b, userId) == SelectUser(a, userId) + SelectUser(b, userId)
  {
    if a == [] {
      assert a + b == b;
    } else {
      assert (a + b)[1..] == a[1..] + b;
      SelectUserAppend(a[1..], b, userId);
    }
  }

  /** The cascade keeps storage order: it distributes over concatenation, so surviving rows stay in place relative to each other. */
  lemma {:induction false} RemoveTargetAppend(a: seq<Favorite>, b: seq<Favorite>, targetId: int)
    ensures RemoveTarget(a + b, targetId) == RemoveTarget(a, targetId) + RemoveTarget(b, targetId)
  {
    if a == [] {
      assert a + b == b;
    } else {
      assert (a + b)[1..] == a[1..] + b;
      RemoveTargetAppend(a[1..], b, targetId);
    }
  }

  /** The cascade for one target leaves the rows of every other target exactly as they were, order included. */
  lemma {:induction false} RemoveTargetKeepsOthers(rows: seq<Favorite>, targetId: int, other: int)
    requires other != targetId
    ensures SelectTarget(RemoveTarget(rows, targetId), other) == SelectTarget(rows, other)
  {
    if rows != [] {
      RemoveTargetKeepsOthers(rows[1..], targetId, other);
    }
  }

  /** A table with no row for `targetId` is left untouched by the cascade. */
  lemma {:induction false} RemoveTargetAbsent(rows: seq<Favorite>, targetId: int)
    requires forall i :: 0 <= i < |rows| ==> rows[i].targetId != targetId
    ensures RemoveTarget(rows, targetId) == rows
  {
    if rows != [] {
      RemoveTargetAbsent(rows[1..], targetId);
      assert [rows[0]] + rows[1..] == rows;
    }
  }

  /** A new row for a pair not yet present keeps both keys unique, provided its id is fresh. */
  lemma AppendKeepsUnique(rows: seq<Favorite>, f: Favorite)
    requires UniquePairs(rows) && UniqueIds(rows)
    requires !HasPair(rows, f.userId, f.targetId)
    requires forall i :: 0 <= i < |rows| ==> rows[i].id != f.id
    ensures UniquePairs(rows + [f]) && UniqueIds(rows + [f])
  {
    var r := rows + [f];
    assert forall k :: 0 <= k < |rows| ==> r[k] == rows[k] && !Matches(rows[k], f.userId, f.targetId);
  }

  /** Deleting one row keeps every other row and adds none. */
  lemma RemoveAtElements(rows: seq<Favorite>, i: nat)
    requires i < |rows|
    ensures |RemoveAt(rows, i)| == |rows| - 1
    ensures forall k :: 0 <= k < |rows| && k != i ==> rows[k] in RemoveAt(rows, i)
    ensures forall f :: f in RemoveAt(rows, i) ==> f in rows
  {
    var r := RemoveAt(rows, i);
    assert forall k :: 0 <= k < |r| ==> r[k] == rows[if k < i then k else k + 1];
    forall k | 0 <= k < |rows| && k != i
      ensures rows[k] in r
    {
      if k < i { assert r[k] == rows[k]; } else { assert r[k - 1] == rows[k]; }
    }
  }

  /** Deleting one row keeps pairs unique, and the deleted pair is then absent. */
  lemma RemoveAtKeepsUniquePairs(rows: seq<Favorite>, i: nat)
    requires i < |rows|
    ensures UniquePairs(rows) ==> UniquePairs(RemoveAt(rows, i))
    ensures UniquePairs(rows) ==> !HasPair(RemoveAt(rows, i), rows[i].userId, rows[i].targetId)
  {
    var r := RemoveAt(rows, i);
    assert forall k :: 0 <= k < |r| ==> r[k] == rows[if k < i then k else k + 1];
  }

  /** Deleting one row keeps ids unique. */
  lemma RemoveAtKeepsUniqueIds(rows: seq<Favorite>, i: nat)
    requires i < |rows|
    requires UniqueIds(rows)
    ensures UniqueIds(RemoveAt(rows, i))
  {
    var r := RemoveAt(rows, i);
    assert forall k :: 0 <= k < |r| ==> r[k] == rows[if k < i then k else k + 1];
  }

  /** Dropping every row of one target keeps both keys unique. */
  lemma {:induction false} RemoveTargetKeepsUnique(rows: seq<Favorite>, targetId: int)
    requires UniquePairs(rows) && UniqueIds(rows)
    ensures UniquePairs(RemoveTarget(rows, targetId)) && UniqueIds(RemoveTarget(rows, targetId))
  {
    if rows != [] {
      var tail := rows[1..];
      assert forall k :: 0 <= k < |tail| ==> tail[k] == rows[k + 1];
      RemoveTargetKeepsUnique(tail, targetId);
      if rows[0].targetId != targetId {
        var w := RemoveTarget(tail, targetId);
        var h := rows[0];
        forall k | 0 <= k < |w|
          ensures !Matches(w[k], h.userId, h.targetId) && w[k].id != h.id
        {
          assert w[k] in tail;
        }
        ConsKeepsUnique(h, w);
      }
    }
  }

  lemma ConsKeepsUnique(h: Favorite, w: seq<Favorite>)
    requires UniquePairs(w) && UniqueIds(w)
    requires forall k :: 0 <= k < |w| ==> !Matches(w[k], h.userId, h.targetId) && w[k].id != h.id
    ensures UniquePairs([h] + w) && UniqueIds([h] + w)
  {
    var r := [h] + w;
    assert forall k :: 1 <= k < |r| ==> r[k] == w[k - 1];
  }

}

=== FILE: wrappers.dfy ===
/** The Some/None datatype used for lookups whose absence is a normal outcome. */
module Wrappers {

  datatype Option<+T> = None | Some(value: T)

}
